=== FILE: README.md ===
# Storefront stock reconciliation — a Dafny model

A model of the small amount of logic in the money-money-money storefront
(`app.py`, a Flask application on top of sqlite_utils and a TOML catalog):

- **Catalog loading** (`load_seller_data`, `load_products_from_toml`). The model
  starts from an already-parsed TOML document, which is a map from top-level
  table name to table. It returns the `seller` table, or that table's `products`
  array, or an empty list when there is no `products` array. A document without
  `seller` fails with `KeyError('seller')`.
- **Budget lookup** (the `try`/`except NotFoundError` in `buyer_page`). The
  page shows the stored budget of the buyer, or `0.0` when the buyer has no row.
- **Stock reconciliation** (the `for product in products` loop in `buyer_page`).
  Each catalog product whose `id` is truthy is looked up in the store's
  `products` table. On a hit, its `stock_level` becomes the store's value. On a
  miss, the record is left as it was. Python truthiness is kept: the id `0`
  is treated like a missing id, so no lookup is made for it.
- **Schema initialisation** (`initialize_database`). Each of `buyers`,
  `sellers` and `products` is created only when no table of that name exists.
  The database is seen as its table set, and each table keeps its columns,
  primary key and foreign keys.
- **The buyer page's data**. The page combines the three pieces above for a
  given buyer name.

Files: `results.dfy` (Option/Result), `catalog.dfy`, `store.dfy`,
`reconciler.dfy`, `schema.dfy`, `buyer_view.dfy`.

Notes on the code:

- `load_seller_data` returns the whole `seller` section. `load_products_from_toml`
  reads the `products` array of that same section directly.
  `Catalog.LoadersAgree` relates the two.
- Nothing in the code keeps budgets non-negative. `Store.BudgetOfNonNegative`
  therefore takes that as a hypothesis on the stored rows.
- `Store.Db` and `Schema.Tables` are two views of the same store. They
  match only when the tables have the definitions that `initialize_database`
  declares. `Store.Db` holds the rows the buyer page reads: `buyers` keyed by
  `name` with a `budget`, and `products` keyed by integer `id` with an
  integer `stock_level`. `Schema.Tables` holds the table definitions. An
  existing table of another shape is kept by the initialisation, and the
  model does not describe that case (see "Left out").
- A product record's `fields` never holds the keys `id` or `stock_level`,
  and a table's `fields` never holds `products`. Subset types enforce this,
  so each key has a single place in the record.
- Catalog ids are restricted to the signed 64-bit range of SQLite's INTEGER
  type.

## Model

| member | source | states |
|---|---|---|
| Catalog.LoadSellerData | app.py:40-44 | succeeds exactly when the document has a `seller` table and returns that table unchanged; otherwise fails with `KeyError('seller')` |
| Catalog.LoadProducts | app.py:55-58 | succeeds exactly when `seller` exists; returns its `products` array in file order, the empty list when the array is absent, `KeyError('seller')` otherwise |
| Catalog.LoadersAgree | app.py:40-58 | for documents whose `seller` is a table, the two loading paths fail on the same documents with the same error, and the product list is the `products` of the section `load_seller_data` returns (or empty) |
| Catalog.LoadIgnoresOtherSections | app.py:57-58 | adding or replacing any top-level table other than `seller` changes neither loader's outcome |
| Store.Get | app.py:67-68 | a keyed lookup yields the row exactly when the key is in the table and raises `NotFound` otherwise |
| Store.BudgetOf | app.py:66-70 | the stored budget when the buyer has a row, `0.0` when not; a miss is never an error |
| Store.BudgetOfNonNegative | app.py:66-70 | if every stored budget is non-negative, so is the budget shown |
| Store.BudgetOfReadsOneRow | app.py:67 | adding, changing or removing another buyer's row does not change the budget shown |
| Reconciler.ReconcileOne | app.py:74-80 | one loop step keeps `id` and every other key; on a hit (truthy id present in the store) the stock level is the store's; otherwise the record is unchanged |
| Reconciler.Reconcile | app.py:73-80 | the reconciled list has the input's length and, at each position, the one-step result for the product at that same position (order preserved, nothing added or removed) |
| Reconciler.ReconcileLoop | app.py:73-80 | the in-place loop leaves the length unchanged, writes the store's stock level into exactly the hit positions, leaves every other position unchanged, and agrees with `Reconcile`; the ids it hands to the store's `get` are exactly the truthy ids of the list |
| Reconciler.ReconcileHit | app.py:74-78 | a product with a truthy id present in the store shows the store's stock level, whatever the catalog said |
| Reconciler.ReconcileMiss | app.py:79-80 | a product with a truthy id absent from the store comes out unchanged (the `NotFoundError` is swallowed) |
| Reconciler.ReconcileNoId | app.py:74-75 | a product with no id or the falsy id `0` comes out unchanged, whatever the store holds |
| Reconciler.ReconcileFrame | app.py:77-78 | in the dict view of a record, every key other than `stock_level` keeps its presence and its value |
| Reconciler.ReconcileChangesOnlyHits | app.py:75-78 | a record that changes was a hit, and its `stock_level` key now holds the store's value |
| Reconciler.ReconcileIdempotent | app.py:73-80 | reconciling an already reconciled list against the same store changes nothing |
| Reconciler.ReconcileAppend | app.py:73-80 | reconciling a concatenation is concatenating the reconciled parts (each element is handled on its own) |
| Reconciler.ReconcileReadsOnlyLookedUpIds | app.py:74-77 | two stores that agree on the truthy ids of the list give the same result, so no other row is read |
| Reconciler.ReconcileIgnoresRowZero | app.py:75 | adding or removing a store row with id `0` never changes the result |
| Reconciler.ReconcileExample | app.py:73-80 | the catalog `[{id:1, stock:5}, {id:2, stock:3}]` against the store `{1: 9}` gives `[{id:1, stock:9}, {id:2, stock:3}]` |
| Schema.CreateIfMissing | app.py:20-24 | afterwards the table exists; every existing table, including one of that name, is untouched; only a missing table receives the given definition |
| Schema.InitializeDatabase | app.py:16-37 | afterwards the table names are the old ones plus `buyers`, `sellers` and `products`; existing tables are not recreated; missing ones get their declared columns, keys and foreign key |
| Schema.InitializeIdempotent | app.py:20-37 | running the initialisation twice is the same as running it once |
| Schema.InitializeEmpty | app.py:16-37 | on an empty database the result is exactly the three declared tables |
| Schema.InitializeKeepsForeignKeysResolved | app.py:26-37 | if the foreign keys resolved before and any existing `sellers` has `group_name`, every foreign key resolves afterwards |
| BuyerView.BuyerPage | app.py:60-82 | the page exists exactly when the catalog has a `seller` table; it carries the buyer's name, the stored budget or `0.0`, and one product per catalog entry |
| BuyerView.BuyerPageProducts | app.py:63-80 | each product on the page is the catalog entry at the same position, with the store's stock level on a hit and unchanged otherwise |
| BuyerView.NewBuyerSeesZeroBudget | app.py:62-70 | a buyer with no row in `buyers` sees a budget of `0.0` |

## Left out

- File opening, `os.path.join` and TOML parsing (`FileNotFoundError`, decode errors): these are I/O and a foreign library. The loaders start from the parsed document.
- Documents whose `seller` is not a table, or whose `products` is not an array of tables: the model's document type rules them out. On these documents the program behaves as follows:
  - `load_seller_data` returns a non-table `seller` (a string, number or array) unchanged.
  - `load_products_from_toml` raises `AttributeError` on a non-table `seller`, because it calls `.get` on it.
  - An empty string or empty table as `products` renders a page with no products.
  - Any other non-array `products`, or an array whose entries are not tables, makes the reconciliation loop raise `AttributeError` or `TypeError`, and the page aborts.
- Catalog.LoadersAgree: the agreement holds only for documents whose `seller` is a table. For `seller = "acme"`, `load_seller_data` succeeds while `load_products_from_toml` raises `AttributeError`.
- Non-integer `id` or `stock_level` values in the catalog, and sqlite's type coercion when a non-integer key is compared with an integer primary key: ids and stock levels are integers, as the `products` schema declares them.
- NULL or non-numeric `budget` or `stock_level` cells in the store: SQLite's type affinity keeps a value such as the text `'n/a'` in those columns, and the page receives it unchanged. The store maps each key to a number.
- Store.BudgetOf: assumes the `buyers` table has the declared shape, with key `name` and a `budget` column. `initialize_database` keeps a pre-existing `buyers` table of another shape. On such a table, a hit without a `budget` column raises `KeyError`, which the `except NotFoundError` does not catch, so the page aborts. The lookup may also search on another primary key.
- Reconciler.ReconcileOne: assumes the `products` table has the declared shape, with key `id` and a `stock_level` column. `initialize_database` keeps a pre-existing `products` table of another shape. On such a table, a hit without `stock_level` raises an uncaught `KeyError`, and `get` searches on that table's own primary key instead of `id`.
- Non-scalar values in a product entry or a top-level table (arrays, inline tables, dates) are not represented: `fields` holds scalars only. The loop never reads or writes those keys.
- Flask setup, the routes' registration, `render_template` and the `marketplace` listing (a raw pass-through of `db["products"].rows`): presentation plumbing with no logic.
- `get_db` caching the connection on the request context: the store is passed explicitly instead.
- The hardcoded buyer name `'buyer1'`: `BuyerView.BuyerPage` takes the name as a parameter.
- SQL, sqlite_utils internals and foreign-key enforcement: the foreign key is kept only as schema metadata.
- Schema.InitializeDatabase: does not model sqlite_utils' foreign-key check in `create`. That library refuses to create `products` when an existing `sellers` table has no `group_name` column, and so aborts the initialisation; the model performs the creation. `Schema.InitializeKeepsForeignKeysResolved` assumes that column exists.
- Schema.InitializeDatabase: table names are compared exactly, as Python's `not in db.table_names()` compares them. SQLite treats table names case-insensitively, so an existing `Buyers` table makes the real `create` of `buyers` fail. The model instead adds `buyers` next to it.
- Reconciler.ReconcileOne: catalog ids outside the signed 64-bit range are not represented. The TOML parser accepts them, but handing such an id to `db["products"].get` raises `OverflowError`. The `except NotFoundError` does not catch it, so the page aborts rather than falling back.
- Float semantics of `budget` and `balance`: the values are only passed through and are modelled as `real`.
- `app.run` and process startup.
- Store writes: reconciliation and the budget read are pure functions that take the store as an input, so "never writes to the store" holds by construction and has no separate lemma.

=== FILE: buyer_view.dfy ===
/** The data `buyer_page` hands to its template: the buyer's name, the
    reconciled product list and the buyer's budget. Template rendering is
    not modelled. */
module BuyerView {
  import opened Results
  import opened Catalog
  import Store
  import Reconciler

  datatype Page = Page(buyerName: string, products: seq<Product>, buyerBalance: real)

  /** `buyer_page` for a given buyer name: load the catalog (a missing
      `seller` table aborts the request), read the budget with its 0.0
      fallback, and reconcile the stock levels against the store. */
  function BuyerPage(buyerName: string, doc: Document, db: Store.Db): (r: Result<Page, LoadError>)
    ensures r.Ok? <==> SellerKey in doc
    ensures r.Err? ==> r.error == KeyError(SellerKey)
    ensures r.Ok? ==> r.value.buyerName == buyerName
    ensures r.Ok? && buyerName in db.buyers ==> r.value.buyerBalance == db.buyers[buyerName]
    ensures r.Ok? && buyerName !in db.buyers ==> r.value.buyerBalance == 0.0
    ensures r.Ok? ==> |r.value.products| == |LoadProducts(doc).value|
  {
    var products :- LoadProducts(doc);
    var balance := Store.BudgetOf(buyerName, db.buyers);
    Ok(Page(buyerName, Reconciler.Reconcile(products, db.stock), balance))
  }

  /** Each product on the page is the catalog entry at the same position,
      with the store's stock level on a hit and unchanged otherwise. */
  lemma BuyerPageProducts(buyerName: string, doc: Document, db: Store.Db, i: int)
    requires SellerKey in doc
    requires 0 <= i < |LoadProducts(doc).value|
    ensures var p := LoadProducts(doc).value[i];
      var shown := BuyerPage(buyerName, doc, db).value.products[i];
      && shown.id == p.id && shown.fields == p.fields
      && (Reconciler.IsHit(p, db.stock) ==> shown.stockLevel == Some(db.stock[p.id.value]))
      && (!Reconciler.IsHit(p, db.stock) ==> shown == p)
  {
  }

  /** The example of a buyer with no row yet: the page shows a budget of 0.0. */
  lemma NewBuyerSeesZeroBudget(doc: Document, stock: map<int, int>)
    requires SellerKey in doc
    ensures BuyerPage("buyer1", doc, Store.Db(map[], stock)).value.buyerBalance == 0.0
  {
  }
}

=== FILE: catalog.dfy ===
/** The seller catalog as it comes out of the TOML parser, and the two loaders
    that read it (`load_seller_data` and `load_products_from_toml` in app.py).
    The parser and the file system are not modelled: a loader starts from the
    already-parsed document. */
module Catalog {
  import opened Results

  /** A scalar TOML value. */
  datatype Scalar = Int(i: int) | Float(f: real) | Str(s: string) | Bool(b: bool)

  /** The range of SQLite's INTEGER column type (a signed 64-bit integer):
      the only ids the `products` table can be asked about. */
  type Int64 = x: int | -0x8000_0000_0000_0000 <= x < 0x8000_0000_0000_0000

  /** The keys of a product entry other than `id` and `stock_level`. */
  type ProductFields = m: map<string, Scalar> | IdKey !in m && StockLevelKey !in m witness map[]

  /** One entry of the seller's `products` array (a Python dict at run time).
      The two keys the buyer page reads or writes have fields of their own:
      `id` and `stock_level`. Every other key (`name`, `price`, `quantity`, ...)
      lives in `fields`. */
  datatype Product = Product(id: Option<Int64>, stockLevel: Option<int>, fields: ProductFields)

  /** The keys of a top-level table other than `products`. */
  type SectionFields = m: map<string, Scalar> | ProductsKey !in m witness map[]

  /** A top-level table of the document: its scalar keys and, when the table
      has one, its `products` array of tables. */
  datatype Section = Section(fields: SectionFields, products: Option<seq<Product>>)

  /** A parsed document: top-level table name to table. */
  type Document = map<string, Section>

  /** Python's `KeyError`, raised by `data['seller']` on a document without that table. */
  datatype LoadError = KeyError(key: string)

  const IdKey := "id"
  const StockLevelKey := "stock_level"
  const SellerKey := "seller"
  const ProductsKey := "products"

  /** The record seen as the Python dict it is: its `fields` plus `id` and
      `stock_level` when present. */
  function AsDict(p: Product): map<string, Scalar>
  {
    var withId := if p.id.Some? then p.fields[IdKey := Int(p.id.value)] else p.fields;
    if p.stockLevel.Some? then withId[StockLevelKey := Int(p.stockLevel.value)] else withId
  }

  /** `load_seller_data`: the `seller` table of the document, as is; a
      document without one raises `KeyError('seller')`. */
  function LoadSellerData(doc: Document): (r: Result<Section, LoadError>)
    ensures r.Ok? <==> SellerKey in doc
    ensures r.Ok? ==> r.value == doc[SellerKey]
    ensures r.Err? ==> r.error == KeyError(SellerKey)
  {
    if SellerKey in doc then Ok(doc[SellerKey]) else Err(KeyError(SellerKey))
  }

  /** `load_products_from_toml`: `data['seller'].get('products', [])`. */
  function LoadProducts(doc: Document): (r: Result<seq<Product>, LoadError>)
    ensures r.Ok? <==> SellerKey in doc
    ensures r.Err? ==> r.error == KeyError(SellerKey)
    ensures r.Ok? && doc[SellerKey].products.Some? ==> r.value == doc[SellerKey].products.value
    ensures r.Ok? && doc[SellerKey].products.None? ==> r.value == []
  {
    if SellerKey !in doc then
      Err(KeyError(SellerKey))
    else
      match doc[SellerKey].products
      case Some(items) => Ok(items)
      case None => Ok([])
  }

  /** The two loading paths agree: the product list is the `products` array
      of the section `load_seller_data` returns, or empty when it has none,
      and both fail on the same documents with the same error. */
  lemma LoadersAgree(doc: Document)
    ensures LoadProducts(doc).Ok? <==> LoadSellerData(doc).Ok?
    ensures LoadProducts(doc).Ok? ==> LoadProducts(doc).value == LoadSellerData(doc).value.products.GetOr([])
    ensures LoadProducts(doc).Err? ==> LoadProducts(doc).error == LoadSellerData(doc).error
  {
  }

  /** Keys other than `seller` play no part in loading: adding or replacing
      another top-level table changes neither loader's outcome. */
  lemma LoadIgnoresOtherSections(doc: Document, name: string, section: Section)
    requires name != SellerKey
    ensures LoadSellerData(doc[name := section]) == LoadSellerData(doc)
    ensures LoadProducts(doc[name := section]) == LoadProducts(doc)
  {
  }
}

=== FILE: reconciler.dfy ===
/** Stock reconciliation: the loop in `buyer_page` that overlays the store's
    `stock_level` onto each catalog product whose `id` the store knows. */
module Reconciler {
  import opened Results
  import opened Catalog
  import Store

  /** Python truthiness of `product.get('id')`: a missing id (`None`) and the
      id `0` are both falsy, and for them no lookup is made. */
  predicate HasTruthyId(p: Product) {
    p.id.Some? && p.id.value != 0
  }

  /** The store decides this product's stock level: its id is truthy and
      has a row in the `products` table. */
  predicate IsHit(p: Product, stock: map<int, int>) {
    HasTruthyId(p) && p.id.value in stock
  }

  /** One pass of the loop body: on a hit the record's `stock_level` becomes
      the store's; on a miss the `NotFoundError` is swallowed and the record
      is left as it was. */
  function ReconcileOne(p: Product, stock: map<int, int>): (r: Product)
    ensures r.id == p.id && r.fields == p.fields
    ensures IsHit(p, stock) ==> r.stockLevel == Some(stock[p.id.value])
    ensures !IsHit(p, stock) ==> r == p
  {
    if HasTruthyId(p) then
      match Store.Get(stock, p.id.value)
      case Ok(level) => p.(stockLevel := Some(level))
      case Err(NotFound) => p
    else
      p
  }

  /** The whole loop, as a function of the catalog and the store's
      `products` table; the store is only read. */
  function Reconcile(products: seq<Product>, stock: map<int, int>): (r: seq<Product>)
    ensures |r| == |products|
    ensures forall i :: 0 <= i < |products| ==> r[i] == ReconcileOne(products[i], stock)
  {
    if products == [] then [] else [ReconcileOne(products[0], stock)] + Reconcile(products[1..], stock)
  }

  /** The loop as written: it walks the list in order and rewrites an
      element only in the hit case. `looked` records every id handed to
      the store's `get`. */
  method ReconcileLoop(products: seq<Product>, stock: map<int, int>) returns (out: seq<Product>, ghost looked: set<int>)
    ensures |out| == |products|
    ensures forall i :: 0 <= i < |products| && IsHit(products[i], stock) ==>
      out[i] == products[i].(stockLevel := Some(stock[products[i].id.value]))
    ensures forall i :: 0 <= i < |products| && !IsHit(products[i], stock) ==> out[i] == products[i]
    ensures out == Reconcile(products, stock)
    ensures looked == LookedUpIds(products)
  {
    out := products;
    looked := {};
    var i := 0;
    while i < |out|
      invariant 0 <= i <= |out| == |products|
      invariant forall j :: 0 <= j < i ==> out[j] == ReconcileOne(products[j], stock)
      invariant forall j :: i <= j < |out| ==> out[j] == products[j]
      invariant looked == LookedUpIds(products[..i])
    {
      LookedUpIdsSnoc(products[..i], products[i]);
      assert products[..i + 1] == products[..i] + [products[i]];
      var productId := out[i].id;
      if productId.Some? && productId.value != 0 {
        looked := looked + {productId.value};
        match Store.Get(stock, productId.value) {
          case Ok(level) =>
            out := out[i := out[i].(stockLevel := Some(level))];
          case Err(NotFound) =>
        }
      }
      i := i + 1;
    }
    assert products[..i] == products;
  }

  /** Hit: the presented stock level is the store's, whatever the catalog said. */
  lemma ReconcileHit(products: seq<Product>, stock: map<int, int>, i: int)
    requires 0 <= i < |products|
    requires HasTruthyId(products[i]) && products[i].id.value in stock
    ensures Reconcile(products, stock)[i].stockLevel == Some(stock[products[i].id.value])
  {
  }

  /** Miss: a truthy id the store does not know leaves the record unchanged. */
  lemma ReconcileMiss(products: seq<Product>, stock: map<int, int>, i: int)
    requires 0 <= i < |products|
    requires HasTruthyId(products[i]) && products[i].id.value !in stock
    ensures Reconcile(products, stock)[i] == products[i]
  {
  }

  /** No id, or the falsy id 0: the record is unchanged, whatever the store holds. */
  lemma ReconcileNoId(products: seq<Product>, stock: map<int, int>, i: int)
    requires 0 <= i < |products|
    requires products[i].id == None || products[i].id == Some(0)
    ensures Reconcile(products, stock)[i] == products[i]
  {
  }

  /** Frame: in the dict view of each record, every key other than
      `stock_level` is present exactly when it was before, with the same value. */
  lemma ReconcileFrame(products: seq<Product>, stock: map<int, int>, i: int, key: string)
    requires 0 <= i < |products|
    requires key != StockLevelKey
    ensures key in AsDict(Reconcile(products, stock)[i]) <==> key in AsDict(products[i])
    ensures key in AsDict(products[i]) ==> AsDict(Reconcile(products, stock)[i])[key] == AsDict(products[i])[key]
  {
  }

  /** A record changes only by gaining the store's stock level: if its
      output differs from its input, it was a hit. */
  lemma ReconcileChangesOnlyHits(products: seq<Product>, stock: map<int, int>, i: int)
    requires 0 <= i < |products|
    requires Reconcile(products, stock)[i] != products[i]
    ensures IsHit(products[i], stock)
    ensures AsDict(Reconcile(products, stock)[i])[StockLevelKey] == Int(stock[products[i].id.value])
  {
  }

  /** Reconciling an already reconciled list changes nothing. */
  lemma ReconcileIdempotent(products: seq<Product>, stock: map<int, int>)
    ensures Reconcile(Reconcile(products, stock), stock) == Reconcile(products, stock)
  {
  }

  /** The loop handles each element on its own: reconciling a concatenation
      is concatenating the reconciled parts. */
  lemma ReconcileAppend(xs: seq<Product>, ys: seq<Product>, stock: map<int, int>)
    ensures Reconcile(xs + ys, stock) == Reconcile(xs, stock) + Reconcile(ys, stock)
  {
    var whole, left, right := Reconcile(xs + ys, stock), Reconcile(xs, stock), Reconcile(ys, stock);
    forall i | 0 <= i < |whole|
      ensures whole[i] == (left + right)[i]
    {
      if i < |xs| {
        assert (xs + ys)[i] == xs[i];
      } else {
        assert (xs + ys)[i] == ys[i - |xs|];
      }
    }
  }

  /** The ids the loop looks up: the truthy ones. */
  ghost function LookedUpIds(products: seq<Product>): set<int>
  {
    set i | 0 <= i < |products| && HasTruthyId(products[i]) :: products[i].id.value
  }

  /** Extending the list by one product adds its id to the looked-up ids
      exactly when that id is truthy. */
  lemma LookedUpIdsSnoc(products: seq<Product>, p: Product)
    ensures LookedUpIds(products + [p]) == LookedUpIds(products) + (if HasTruthyId(p) then {p.id.value} else {})
  {
    var ps := products + [p];
    assert forall i :: 0 <= i < |products| ==> ps[i] == products[i];
    assert ps[|products|] == p;
  }

  /** Two stores that agree on the looked-up ids give the same result:
      reconciliation reads no other row. */
  lemma ReconcileReadsOnlyLookedUpIds(products: seq<Product>, s1: map<int, int>, s2: map<int, int>)
    requires forall k :: k in LookedUpIds(products) ==> (k in s1 <==> k in s2)
    requires forall k :: k in LookedUpIds(products) && k in s1 && k in s2 ==> s1[k] == s2[k]
    ensures Reconcile(products, s1) == Reconcile(products, s2)
  {
    forall i | 0 <= i < |products|
      ensures ReconcileOne(products[i], s1) == ReconcileOne(products[i], s2)
    {
      if HasTruthyId(products[i]) {
        assert products[i].id.value in LookedUpIds(products);
      }
    }
  }

  /** A store row with id 0 is never consulted: `if product_id:` skips the id 0. */
  lemma ReconcileIgnoresRowZero(products: seq<Product>, stock: map<int, int>, level: int)
    ensures Reconcile(products, stock[0 := level]) == Reconcile(products, stock)
    ensures Reconcile(products, stock - {0}) == Reconcile(products, stock)
  {
    ReconcileReadsOnlyLookedUpIds(products, stock[0 := level], stock);
    ReconcileReadsOnlyLookedUpIds(products, stock - {0}, stock);
  }

  /** The worked example: catalog `[{id:1, stock:5}, {id:2, stock:3}]` against
      a store holding only `1 -> 9` gives `[{id:1, stock:9}, {id:2, stock:3}]`. */
  lemma ReconcileExample(fields1: ProductFields, fields2: ProductFields)
    ensures Reconcile([Product(Some(1), Some(5), fields1), Product(Some(2), Some(3), fields2)], map[1 := 9])
         == [Product(Some(1), Some(9), fields1), Product(Some(2), Some(3), fields2)]
  {
  }
}

=== FILE: results.dfy ===
/** Optional values and failure-carrying results, used for Python's `None`,
    `dict.get` and the exceptions the storefront raises or swallows. */
module Results {

  /** A value that may be missing (Python `None`). */
  datatype Option<+T> = None | Some(value: T) {

    /** `dict.get(key, default)` once the lookup is done: the present value
        if there is one, `default` otherwise. */
    function GetOr(default: T): T {
      if Some? then value else default
    }
  }

  /** The outcome of an operation that either yields a value or raises an error. */
  datatype Result<+T, +E> = Ok(value: T) | Err(error: E) {

    predicate IsFailure() {
      Err?
    }

    function PropagateFailure<U>(): Result<U, E>
      requires Err?
    {
      Err(error)
    }

    function Extract(): T
      requires Ok?
    {
      value
    }
  }
}

=== FILE: schema.dfy ===
/** `initialize_database`: create the `buyers`, `sellers` and `products`
    tables, each only when no table of that name exists yet. The database is
    seen through its table set: table name to declared columns, primary key
    and foreign keys. SQL and foreign-key enforcement are not modelled. */
module Schema {

  /** The Python types the columns are declared with: `str`, `float`, `int`. */
  datatype ColumnType = Text | Float | Integer

  datatype Column = Column(name: string, kind: ColumnType)

  /** `column` references `otherColumn` of `otherTable`. */
  datatype ForeignKey = ForeignKey(column: string, otherTable: string, otherColumn: string)

  datatype Table = Table(columns: seq<Column>, pk: string, foreignKeys: seq<ForeignKey>)

  /** The database's tables by name; `db.table_names()` is the key set. */
  type Tables = map<string, Table>

  const BuyersName := "buyers"
  const SellersName := "sellers"
  const ProductsName := "products"

  const BuyersTable := Table([Column("name", Text), Column("budget", Float)], "name", [])

  const SellersTable := Table([Column("group_name", Text), Column("balance", Float)], "group_name", [])

  const ProductsTable :=
    Table([Column("id", Integer), Column("seller_group", Text), Column("stock_level", Integer)], "id",
          [ForeignKey("seller_group", SellersName, "group_name")])

  /** The three tables the storefront needs, with the definitions it creates them with. */
  const Required: Tables := map[BuyersName := BuyersTable, SellersName := SellersTable, ProductsName := ProductsTable]

  predicate HasColumn(t: Table, name: string) {
    exists c :: c in t.columns && c.name == name
  }

  /** Every foreign key of every table names an existing table and a column it has. */
  predicate ForeignKeysResolve(db: Tables) {
    forall t, fk :: t in db && fk in db[t].foreignKeys ==>
      fk.otherTable in db && HasColumn(db[fk.otherTable], fk.otherColumn)
  }

  /** `if name not in db.table_names(): db[name].create(...)`. */
  function CreateIfMissing(db: Tables, name: string, table: Table): (r: Tables)
    ensures r.Keys == db.Keys + {name}
    ensures forall t :: t in db ==> r[t] == db[t]
    ensures name !in db ==> r[name] == table
  {
    if name !in db then db[name := table] else db
  }

  /** `initialize_database`: the three checks in source order. */
  function InitializeDatabase(db: Tables): (r: Tables)
    ensures r.Keys == db.Keys + Required.Keys
    ensures forall t :: t in db ==> r[t] == db[t]
    ensures forall t :: t in Required && t !in db ==> r[t] == Required[t]
  {
    var withBuyers := CreateIfMissing(db, BuyersName, BuyersTable);
    var withSellers := CreateIfMissing(withBuyers, SellersName, SellersTable);
    CreateIfMissing(withSellers, ProductsName, ProductsTable)
  }

  /** Running the initialisation twice is the same as running it once. */
  lemma InitializeIdempotent(db: Tables)
    ensures InitializeDatabase(InitializeDatabase(db)) == InitializeDatabase(db)
  {
  }

  /** On an empty database the result is exactly the three required tables. */
  lemma InitializeEmpty()
    ensures InitializeDatabase(map[]) == Required
  {
  }

  /** The one foreign key the initialisation declares points at a table it
      also guarantees: `sellers` is created before `products`, so it exists
      whenever `products.seller_group` is declared. The key resolves when
      the database's foreign keys resolved before and any pre-existing
      `sellers` table has a `group_name` column. */
  lemma InitializeKeepsForeignKeysResolved(db: Tables)
    requires ForeignKeysResolve(db)
    requires SellersName in db ==> HasColumn(db[SellersName], "group_name")
    ensures ForeignKeysResolve(InitializeDatabase(db))
  {
    var r := InitializeDatabase(db);
    assert HasColumn(SellersTable, "group_name") by {
      assert SellersTable.columns[0] == Column("group_name", Text);
    }
    forall t, fk | t in r && fk in r[t].foreignKeys
      ensures fk.otherTable in r && HasColumn(r[fk.otherTable], fk.otherColumn)
    {
      if t !in db {
        assert t in Required;
        if t == ProductsName {
          assert fk == ForeignKey("seller_group", SellersName, "group_name");
        }
      }
    }
  }

}

=== FILE: store.dfy ===
/** The relational store as the buyer page reads it: a keyed lookup that
    raises `NotFoundError` on a miss (sqlite_utils' `table.get(pk)`), and the
    buyer budget read that recovers from that miss. */
module Store {
  import opened Results

  /** `sqlite_utils.db.NotFoundError`. */
  datatype LookupError = NotFound

  /** The two tables the buyer page reads: `buyers` (name to budget) and
      `products` (id to stock level). */
  datatype Db = Db(buyers: map<string, real>, stock: map<int, int>)

  /** `table.get(pk)`: the row on a hit, `NotFound` on a miss. */
  function Get<K, V>(table: map<K, V>, key: K): (r: Result<V, LookupError>)
    ensures r.Ok? <==> key in table
    ensures r.Ok? ==> r.value == table[key]
  {
    if key in table then Ok(table[key]) else Err(NotFound)
  }

  /** The budget shown for a buyer who has no row yet. */
  const DefaultBudget: real := 0.0

  /** The `try`/`except NotFoundError` around `db["buyers"].get(name)['budget']`:
      the stored budget on a hit, 0.0 on a miss, never an error. */
  function BudgetOf(name: string, buyers: map<string, real>): (r: real)
    ensures name in buyers ==> r == buyers[name]
    ensures name !in buyers ==> r == 0.0
  {
    match Get(buyers, name)
    case Ok(budget) => budget
    case Err(NotFound) => DefaultBudget
  }

  /** When every stored budget is non-negative, so is every budget the page shows. */
  lemma BudgetOfNonNegative(name: string, buyers: map<string, real>)
    requires forall n :: n in buyers ==> buyers[n] >= 0.0
    ensures BudgetOf(name, buyers) >= 0.0
  {
  }

  /** Only the row of the buyer asked about is read: rows of other buyers
      can be added, changed or removed without changing the result. */
  lemma BudgetOfReadsOneRow(name: string, buyers: map<string, real>, other: string, budget: real)
    requires other != name
    ensures BudgetOf(name, buyers[other := budget]) == BudgetOf(name, buyers)
    ensures BudgetOf(name, buyers - {other}) == BudgetOf(name, buyers)
  {
  }
}
